=== FILE: README.md ===
# okio `RealBufferedSource`, modelled in Dafny

This project models okio's buffered reader, `RealBufferedSource`. The reader owns an internal
buffer and an underlying `Source`. It pulls from that source in segment-sized reads
(`source.read(buffer, Segment.SIZE)`), one at a time and only when the buffer cannot serve a
request. It exposes `require`, `request`, `skip`, `indexOf` (with and without a limit),
`readByte`, `readByteString`, `readAll(sink)` and `close`, plus an `inputStream()` view with
`read()`, `read(byte[], off, len)`, `available()` and `close()`. Once closed, every operation
other than `close()` fails with the closed error, never with end of stream; a repeated `close()`
succeeds and changes nothing.

The behaviour modelled is the behaviour `RealBufferedSourceTest` asserts, generalised to every
input. `RealBufferedSource.java` is not part of this model. Where the tests leave a choice open,
the model makes one of its own; those choices are listed under "## Left out".

Layout, one module per file:

- `bytes.dfy` (`Bytes`): the `byte` type, `Min`/`Max`, `Repeat`, `Flatten`, and small sequence
  facts (splitting, prefixes, cancellation) the other proofs use.
- `outcomes.dfy` (`Outcomes`): the failure kinds the reader keeps apart: end of stream
  (`EOFException`), closed state (`IllegalStateException("closed")`), the adapter's
  `IOException("closed")`, and an out-of-range array slice. Also `Outcome` and `Option`.
- `sources.dfy` (`Sources`): the underlying source. It holds its remaining bytes, a per-read
  throttle (`AtMost(1)` is the test's `ForwardingSource`) and a count of `close()` calls.
  `SEGMENT_SIZE` is an abstract constant of at least 2 that fits in a Java `int`. The file also
  holds the two arithmetic/sequence references: `RoundUp` and `Chunks`.
- `real_buffered_source.dfy` (`RealBufferedSource`): `State(source, buffer, closed)` and the
  reader's operations as pure transitions returning `Step(result, next)`. Each pull loop is a
  recursive function on the bytes the source still holds. Every pull loop except `readAll`'s is
  described by one reference, `Quota(s, need)`: the bytes that whole pulls must take from the source to buffer
  `need` bytes. The predicate `Advanced(s, need, consumed, t)` says that the source gave up
  exactly that quota and that the caller took the first `consumed` bytes of
  `buffer ++ source`, in order. The `readAll` loop is described instead by its writes:
  they concatenate (`Flatten`) to the stream, and from an empty buffer they are the source cut
  by `Chunks` into one run per pull.
- `input_stream_adapter.dfy` (`InputStreamAdapter`): the `InputStream` view. End of stream is
  the sentinel -1, and use after close is `IoError`.
- `sessions.dfy` (`Sessions`): arbitrary sequences of calls. It proves that bytes come off the
  stream in order and exactly once, that closed is terminal, and that the source is closed once.
- `real_buffered_source_test.dfy` (`RealBufferedSourceTest`): each JUnit scenario as a lemma,
  with the segment size left symbolic.

## Model

| member | source | states |
|---|---|---|
| Sources.Close | okio/src/test/java/okio/RealBufferedSourceTest.java:164-167 | `source.close()` leaves the source's bytes and throttle as they were and counts one more close call; the count is what shows the reader closes its source once. |
| Sources.ReadTo | okio/src/test/java/okio/RealBufferedSourceTest.java:83-87 | A read request for `byteCount` bytes is throttled by the source's cap, then moves at most that many bytes from the front of the source to the end of the sink, in order. It comes back short only when it empties the source, and it returns -1 exactly when the source was already empty. |
| Sources.Chunks | okio/src/test/java/okio/RealBufferedSourceTest.java:209-230 | Reference for the sink's writes: the data cut, in order, into runs of exactly `c` bytes, with only the last run possibly shorter; the runs concatenate back to the data. |
| Sources.RoundUp | okio/src/test/java/okio/RealBufferedSourceTest.java:130-140 | The bytes that whole pulls of `c` bring to cover a shortfall `x`: at least `x`, less than `x + c`, and zero only for no shortfall. |
| Sources.RoundUpIsWholePulls | okio/src/test/java/okio/RealBufferedSourceTest.java:130-140 | `RoundUp(x, c)` is a whole number of pulls of `c` (`WholePulls`), and it is the only whole number of pulls in `[x, x + c)`: the least multiple of `c` that covers `x`. |
| RealBufferedSource.Open | okio/src/test/java/okio/RealBufferedSourceTest.java:34-40 | `new RealBufferedSource(source)` starts open, with nothing buffered, the stream equal to the source's bytes, the source's throttle kept and no close call made on it yet. |
| RealBufferedSource.Pull | okio/src/test/java/okio/RealBufferedSourceTest.java:43-46 | One segment-sized pull: it moves `min(chunk, |source|)` bytes from the front of the source to the end of the buffer, keeps `buffer ++ source` unchanged, and reports end of stream exactly when the source is empty. |
| RealBufferedSource.Quota | okio/src/test/java/okio/RealBufferedSourceTest.java:94-140 | The bytes a pull loop takes. None when the buffer already holds `need` bytes. Otherwise enough bytes are buffered afterwards, or the whole source was taken, and the loop stops within one pull of `need` (it never pulls a segment it did not need). |
| RealBufferedSource.Request | okio/src/test/java/okio/RealBufferedSourceTest.java:94-115 | `request(n)` is true exactly when `buffer ++ source` holds `n` bytes. The source gives up exactly the quota for `n`, nothing is consumed, and a closed reader fails with the closed error and does not change. |
| RealBufferedSource.Require | okio/src/test/java/okio/RealBufferedSourceTest.java:106-128 | `require(n)` succeeds exactly when `n` bytes are available, leaving at least `n` buffered. Otherwise it fails with end of stream (not the closed error), with the whole source pulled into the buffer and nothing lost. When closed it fails with the closed error. |
| RealBufferedSource.RequireUsesBufferFirst | okio/src/test/java/okio/RealBufferedSourceTest.java:94-104 | When the buffer already holds `n` bytes, `require(n)` succeeds and leaves buffer and source exactly as they were. |
| RealBufferedSource.RequireStopsWithinOnePull | okio/src/test/java/okio/RealBufferedSourceTest.java:130-140 | Short of bytes, `require(n)` makes the buffer the old buffer followed by a non-empty prefix of the source, in order. The source keeps the rest. The buffer ends with at least `n` and fewer than `n` plus one pull's worth of bytes. |
| RealBufferedSource.ReadByte | okio/src/test/java/okio/RealBufferedSourceTest.java:182-186 | `readByte()` returns the first byte of `buffer ++ source` and removes exactly it, pulling only the quota for one byte. An empty stream is end of stream; a closed reader fails with the closed error. |
| RealBufferedSource.ReadByteString | okio/src/test/java/okio/RealBufferedSourceTest.java:188-192 | `readByteString(n)` returns the first `n` bytes of `buffer ++ source` and removes exactly them. Fewer than `n` bytes is end of stream; a closed reader fails with the closed error. |
| RealBufferedSource.Skip | okio/src/test/java/okio/RealBufferedSourceTest.java:142-162 | `skip(n)` succeeds exactly when `n` bytes are available and removes exactly the first `n` bytes of `buffer ++ source`, pulling the quota for `n`. When the buffer covers `n`, the source is untouched and the buffer loses its first `n` bytes. Otherwise it fails with end of stream with everything drained, or with the closed error when closed. |
| RealBufferedSource.SkipBuffersLessThanOnePull | okio/src/test/java/okio/RealBufferedSourceTest.java:142-150 | A skip the buffer cannot cover leaves fewer bytes buffered than one pull brings. |
| RealBufferedSource.ScanBuffer | okio/src/test/java/okio/RealBufferedSourceTest.java:90 | The buffer's own `indexOf(b, from, to)` returns the first index in `[from, min(to, size))` holding `b`, or -1 when there is none. It looks only at buffered bytes. |
| RealBufferedSource.IndexOfRange | okio/src/test/java/okio/RealBufferedSourceTest.java:81-92 | `indexOf(b, from, to)` returns the first occurrence of `b` in `[from, to)` of `buffer ++ source`, or -1 when there is none. A hit is buffered, with the buffer filled just far enough to reach it. A miss pulls exactly the quota for `to` and nothing beyond the limit. Nothing is consumed, and a closed reader fails with the closed error. |
| RealBufferedSource.IndexOfMissPullsToLimit | okio/src/test/java/okio/RealBufferedSourceTest.java:81-92 | On a source that yields one byte per read, a miss returns -1 after pulling exactly the first `min(limit, |source|)` bytes, even when `b` occurs later. |
| RealBufferedSource.IndexOf | okio/src/test/java/okio/RealBufferedSourceTest.java:170-174 | `indexOf(b)` returns the first occurrence of `b` in the whole stream, or -1, and consumes nothing. A closed reader fails with the closed error. |
| RealBufferedSource.IndexOfKeepsStream | okio/src/test/java/okio/RealBufferedSourceTest.java:81-92 | `indexOf(b, from, to)` only moves bytes into the buffer: `buffer ++ source` is unchanged, and so are the closed flag and the source's close count. |
| RealBufferedSource.ReadAll | okio/src/test/java/okio/RealBufferedSourceTest.java:209-230 | `readAll(sink)` concatenates its writes, in order, to exactly `buffer ++ source` and returns that length, leaving buffer and source empty. From an empty buffer the writes are exactly `Chunks(source, one pull)`: one write per pulled segment. No write exceeds one pull except a final flush of bytes buffered beforehand. |
| RealBufferedSource.Close | okio/src/test/java/okio/RealBufferedSourceTest.java:164-167 | `close()` leaves the reader closed. The first call closes the underlying source once (its bytes untouched) and drops the buffer; a repeated call changes nothing. |
| InputStreamAdapter.Read | okio/src/test/java/okio/RealBufferedSourceTest.java:43-66 | `read()` returns the first byte of `buffer ++ source` and removes exactly it, pulling only when nothing is buffered. It returns -1, changing nothing, exactly when the stream is empty. After close it fails with `IoError`. |
| InputStreamAdapter.ReadPullsOneSegment | okio/src/test/java/okio/RealBufferedSourceTest.java:43-46 | With nothing buffered, `read()` pulls exactly one segment, returns its first byte and keeps the other `min(chunk, |source|) - 1` bytes of it buffered. |
| InputStreamAdapter.ReadInto | okio/src/test/java/okio/RealBufferedSourceTest.java:48-52 | `read(data, off, len)` returns `min(len, buffered)`, where "buffered" counts the one pull made when nothing was buffered. It copies exactly those first stream bytes into `data` at `off`, leaves the rest of the array alone and returns -1 only on an empty stream. A bad slice is out of range; after close it fails with `IoError`. |
| InputStreamAdapter.ReadIntoUsesBufferOnly | okio/src/test/java/okio/RealBufferedSourceTest.java:48-52 | With bytes buffered, a bulk read returns `min(len, |buffer|)` of them, in order, and leaves the source untouched. |
| InputStreamAdapter.ReadArray | okio/src/test/java/okio/RealBufferedSourceTest.java:202-206 | `read(data)` fails with `IoError` after close and returns -1 exactly on an empty stream. Otherwise it returns `min(|data|, buffered)`, where "buffered" counts the one pull made when nothing was buffered, copies exactly those first stream bytes to the front of `data`, and removes exactly them from the stream. |
| InputStreamAdapter.Available | okio/src/test/java/okio/RealBufferedSourceTest.java:40-61 | `available()` never pulls or changes anything. It reports the buffered byte count, or `Integer.MAX_VALUE` when more than that is buffered, and fails with `IoError` after close. |
| InputStreamAdapter.Close | okio/src/test/java/okio/RealBufferedSourceTest.java:69-79 | Closing the view closes the reader: closed afterwards, source closed once, and a repeated call changes nothing. |
| Sessions.Apply | okio/src/test/java/okio/RealBufferedSourceTest.java:48-62 | Every call takes a prefix of `buffer ++ source` (returned, skipped, written to the sink or dropped by close), and what is left is the rest, in order. Only a close closes the reader, and only the first close closes the source. On a closed reader every call other than a close reports the closed error (`IoError` for the view's reads and `available()`) and changes nothing; a repeated close succeeds and changes nothing. |
| Sessions.SkipBehaves | okio/src/test/java/okio/RealBufferedSourceTest.java:142-162 | `skip(n)` takes exactly the bytes it skipped off the front of the stream: all `n`, or on end of stream all there were. |
| Sessions.ReadByteBehaves | okio/src/test/java/okio/RealBufferedSourceTest.java:182-186 | `readByte()` takes exactly the byte it returned, and nothing on end of stream. |
| Sessions.ReadByteStringBehaves | okio/src/test/java/okio/RealBufferedSourceTest.java:188-192 | `readByteString(n)` takes exactly the bytes it returned, and nothing on end of stream. |
| Sessions.RequestBehaves | okio/src/test/java/okio/RealBufferedSourceTest.java:94-140 | `request(n)` and `require(n)` only move bytes from the source into the buffer: they take nothing off the stream. |
| Sessions.IndexOfBehaves | okio/src/test/java/okio/RealBufferedSourceTest.java:81-92 | `indexOf` takes nothing off the stream and leaves the closed flag and the source's close count alone. |
| Sessions.ReadAllBehaves | okio/src/test/java/okio/RealBufferedSourceTest.java:209-230 | `readAll(sink)` takes the whole stream, and what the sink was handed is that stream, in order. |
| Sessions.CloseBehaves | okio/src/test/java/okio/RealBufferedSourceTest.java:164-167 | A close takes the buffered bytes it drops and leaves the source's bytes; the first close closes the source once and a repeated one changes nothing. |
| Sessions.StreamReadBehaves | okio/src/test/java/okio/RealBufferedSourceTest.java:43-46 | The view's `read()` takes exactly the byte it returned, or nothing at the end of the stream. |
| Sessions.StreamReadIntoBehaves | okio/src/test/java/okio/RealBufferedSourceTest.java:48-52 | The view's `read(data, off, len)` takes exactly the bytes it copied into `data[off..]`, in order. |
| Sessions.RunConsumesInOrder | okio/src/test/java/okio/RealBufferedSourceTest.java:33-67 | Over any sequence of calls, the bytes consumed followed by what remains are exactly the stream the run started on. Nothing is lost, repeated or reordered. |
| Sessions.ClosedIsTerminal | okio/src/test/java/okio/RealBufferedSourceTest.java:164-207 | On a closed reader, any sequence of calls changes nothing and consumes nothing. Every call other than `close()` fails with the closed error (the adapter's calls with `IoError`); a repeated `close()`, direct or through the view, succeeds; none reports end of stream. |
| Sessions.ClosedExactlyAfterClose | okio/src/test/java/okio/RealBufferedSourceTest.java:69-79 | A run ends closed exactly when the reader was closed already or one of its calls was `close()`, directly or through the view. |
| Sessions.SourceClosedOnce | okio/src/test/java/okio/RealBufferedSourceTest.java:164-167 | However many times the reader or its view is closed, the underlying source has been closed once if the reader is closed and never otherwise. |
| RealBufferedSourceTest.InputStreamTracksSegments | okio/src/test/java/okio/RealBufferedSourceTest.java:33-67 | The scenario's every assertion: the available counts, the bytes read, the source sizes after each read, and the final -1. |
| RealBufferedSourceTest.InputStreamCloses | okio/src/test/java/okio/RealBufferedSourceTest.java:69-79 | After the view's `close()`, `require(1)` fails with the closed error. |
| RealBufferedSourceTest.IndexOfStopsReadingAtLimit | okio/src/test/java/okio/RealBufferedSourceTest.java:81-92 | On "abcdef" read one byte at a time, `indexOf('e', 0, 4)` is -1 and two bytes stay in the source. |
| RealBufferedSourceTest.RequireTracksBufferFirst | okio/src/test/java/okio/RealBufferedSourceTest.java:94-104 | With "aa" buffered and "bb" in the source, `require(2)` leaves both sizes at 2. |
| RealBufferedSourceTest.RequireIncludesBufferBytes | okio/src/test/java/okio/RealBufferedSourceTest.java:106-115 | With "a" buffered and "b" in the source, `require(2)` succeeds and the buffer starts "ab". |
| RealBufferedSourceTest.RequireInsufficientData | okio/src/test/java/okio/RealBufferedSourceTest.java:117-128 | `require(2)` on a one-byte source fails with end of stream. |
| RealBufferedSourceTest.RequireReadsOneSegmentAtATime | okio/src/test/java/okio/RealBufferedSourceTest.java:130-140 | `require(2)` on two full segments leaves one segment in the source and one in the buffer. |
| RealBufferedSourceTest.SkipReadsOneSegmentAtATime | okio/src/test/java/okio/RealBufferedSourceTest.java:142-150 | `skip(2)` on two full segments leaves one segment in the source and `SEGMENT_SIZE-2` bytes buffered. |
| RealBufferedSourceTest.SkipTracksBufferFirst | okio/src/test/java/okio/RealBufferedSourceTest.java:152-162 | With "aa" buffered and "bb" in the source, `skip(2)` empties the buffer and leaves the source at 2. |
| RealBufferedSourceTest.OperationsAfterClose | okio/src/test/java/okio/RealBufferedSourceTest.java:164-207 | After `close()` on an empty source: `indexOf`, `skip`, `readByte` and `readByteString` fail with the closed error; the view's two reads fail with `IoError`. |
| RealBufferedSourceTest.ReadAllReadsOneSegmentAtATime | okio/src/test/java/okio/RealBufferedSourceTest.java:209-230 | On 'a', 'b' and 'c' segments, `readAll` returns `3*SEGMENT_SIZE` and the sink sees exactly three writes: the three segments, in order. |

## Left out

- Segments, the segment pool, shared segments with unshare-on-write, and the linked-list
  layout of a buffer. The buffer is a plain `seq<byte>`, so no operation's result depends on
  segment boundaries.
- Text: `writeUtf8` and `readUtf8` appear in the tests only on ASCII, so the model works on raw
  bytes.
- Java exception classes: failures are the `Failure` kinds in an `Outcome`, and the adapter's
  end of stream is the sentinel -1.
- Argument validation. Counts and indices are `nat`, so negative arguments are not modelled.
  `indexOf` with `toIndex <= fromIndex` returns -1 without reading, like an empty search loop.
  No `IllegalArgumentException` for an inverted range is modelled.
- 64-bit `long` counts and totals are unbounded naturals here, so overflow is not modelled.
- Failures of the underlying source or sink (real I/O errors), timeouts and concurrency: reads
  and sink writes always succeed.
- `MockSink`'s log text and `Buffer.toString`: the sink is the ordered list of byte runs it was
  handed.
- `ForwardingSource` subclassing: it is the source's per-read cap.
- The `buffer()` accessor: the tests that pre-seed the buffer build the state with those bytes
  already buffered.
- The model's `readAll` hands the sink exactly the count each pull returned, then flushes what
  is still buffered. The tests fix the writes only for an unthrottled source with nothing
  buffered, where grouping writes by complete segments gives the same three writes; the model
  does not promise the writes a segment-grouping implementation would make on a throttled
  source.
- The model's `close()` drops the buffered bytes. The tests never look at the buffer after a
  close, so this is the model's choice; every later call fails as closed either way.
- `InputStream.read(data, off, 0)` takes the same path as any other count. It may pull once
  when nothing is buffered, and returns 0 on a non-empty stream.
- `exhausted()`, `read(sink, byteCount)`, `readUtf8` and the typed numeric reads
  (`readShort`/`readInt`/`readLong`) are not part of this model. The tests do not exercise them.
- RealBufferedSource.IndexOf: states the result and that nothing is consumed, but not how far
  the buffer is filled. That is stated for the bounded form, `IndexOfRange`, which
  `indexOf(b)` calls with `Long.MAX_VALUE`.

=== FILE: bytes.dfy ===
/** Bytes and the small sequence helpers the rest of the model shares. */
module Bytes {

  /** An octet. Java's signed `byte` read through `& 0xff` is this value. */
  type byte = b: int | 0 <= b < 256

  function Min(a: int, b: int): (m: int)
    ensures m <= a && m <= b
    ensures m == a || m == b
  {
    if a <= b then a else b
  }

  function Max(a: int, b: int): (m: int)
    ensures a <= m && b <= m
    ensures m == a || m == b
  {
    if a <= b then b else a
  }

  /** `n` copies of `b` (the tests' `repeat(c, n)` on ASCII characters). */
  function Repeat(b: byte, n: nat): (r: seq<byte>)
    ensures |r| == n
    ensures forall i :: 0 <= i < n ==> r[i] == b
  {
    seq(n, _ => b)
  }

  /** The concatenation, in order, of a sequence of byte runs. */
  function Flatten(runs: seq<seq<byte>>): seq<byte>
  {
    if |runs| == 0 then [] else runs[0] + Flatten(runs[1..])
  }

  lemma FlattenCons(run: seq<byte>, runs: seq<seq<byte>>)
    ensures Flatten([run] + runs) == run + Flatten(runs)
  {
    assert ([run] + runs)[1..] == runs;
  }

  /** A sequence is its first `n` elements followed by the rest. */
  lemma SplitAt<T>(a: seq<T>, n: nat)
    requires n <= |a|
    ensures a[..n] + a[n..] == a
  {
  }

  lemma PrefixOfAppend<T>(a: seq<T>, b: seq<T>)
    ensures (a + b)[..|a|] == a
  {
  }

  /** The one-element prefix of a sequence holds its first element. */
  lemma FirstOf<T>(a: seq<T>)
    requires a != []
    ensures a[..1] == [a[0]]
  {
  }

  /** Sequence concatenation regroups freely. */
  lemma AppendAssociates<T>(a: seq<T>, b: seq<T>, c: seq<T>)
    ensures a + (b + c) == (a + b) + c
  {
  }

  /** Equal sequences with the same tail have the same head. */
  lemma AppendCancel<T>(a: seq<T>, b: seq<T>, c: seq<T>)
    requires a + c == b + c
    ensures a == b
  {
    assert |a| == |b|;
    assert forall i :: 0 <= i < |a| ==> a[i] == (a + c)[i] && b[i] == (b + c)[i];
  }
}

=== FILE: input_stream_adapter.dfy ===
/**
 * The `InputStream` view of a buffered reader (`inputStream()`). End of stream is the
 * sentinel -1, not a failure; using the view after close is an `IOException`.
 */
module InputStreamAdapter {
  import opened Bytes
  import opened Outcomes
  import opened Sources
  import opened RealBufferedSource

  /** Java's `Integer.MAX_VALUE`: `available()` is an `int`. */
  const INT_MAX: nat := 0x7fff_ffff

  /** `read()`: the next byte as 0..255, pulling one segment if nothing is buffered; -1 at the end. */
  function Read(s: State): (r: Step<int>)
    ensures s.closed ==> r == Step(Fail(IoError), s)
    ensures !s.closed ==> r.result.Ok? && (r.result.value == -1 <==> Stream(s) == [])
    ensures r.result == Ok(-1) ==> r.next == s
    ensures r.result.Ok? && r.result.value != -1 ==>
              r.result.value == Stream(s)[0] && Advanced(s, 1, 1, r.next)
  {
    if s.closed then Step(Fail(IoError), s)
    else if |s.buffer| == 0 then
      match Pull(s)
      case None => Step(Ok(-1), s)
      case Some(s1) =>
        AdvancedByTaking(s1, 1, s1, 1);
        AdvancedAfterPull(s, 1, 1, s1.(buffer := s1.buffer[1..]));
        var b: int := s1.buffer[0];
        Step(Ok(b), s1.(buffer := s1.buffer[1..]))
    else
      AdvancedByTaking(s, 1, s, 1);
      var b: int := s.buffer[0];
      Step(Ok(b), s.(buffer := s.buffer[1..]))
  }

  /**
   * With nothing buffered, `read()` pulls exactly one segment, returns its first byte and keeps
   * the rest of that segment buffered.
   */
  lemma ReadPullsOneSegment(s: State)
    requires !s.closed && s.buffer == [] && s.source.data != []
    ensures
      var k := Min(Chunk(s.source.cap), |s.source.data|);
      var r := Read(s);
      && r.result == Ok(s.source.data[0] as int)
      && r.next.buffer == s.source.data[1..k]
      && r.next.source.data == s.source.data[k..]
  {
    var k := Min(Chunk(s.source.cap), |s.source.data|);
    var r := Read(s);
    var d := s.source.data;
    assert Quota(s, 1) == k;
    assert Stream(s) == d;
    assert Stream(r.next) == d[1..] == d[1..k] + d[k..];
    AppendCancel(r.next.buffer, d[1..k], d[k..]);
  }

  /** What `read(data, offset, byteCount)` returns: the count (-1 at the end) and the array after. */
  datatype ArrayRead = ArrayRead(count: int, data: seq<byte>)

  /** `data` with `bytes` written over it from `offset` on. */
  function Overwrite(data: seq<byte>, offset: nat, bytes: seq<byte>): (r: seq<byte>)
    requires offset + |bytes| <= |data|
    ensures |r| == |data|
    ensures r[offset..offset + |bytes|] == bytes
    ensures forall i :: 0 <= i < |data| && !(offset <= i < offset + |bytes|) ==> r[i] == data[i]
  {
    data[..offset] + bytes + data[offset + |bytes|..]
  }

  /** Copies the first `min(byteCount, |buffer|)` buffered bytes into `data` at `offset`. */
  function CopyBuffered(s: State, data: seq<byte>, offset: nat, byteCount: nat): (r: Step<ArrayRead>)
    requires s.buffer != [] && offset + byteCount <= |data|
    ensures var n := Min(byteCount, |s.buffer|);
            && r.result == Ok(ArrayRead(n, Overwrite(data, offset, Stream(s)[..n])))
            && r.next == s.(buffer := s.buffer[n..])
            && Advanced(s, 0, n, r.next)
  {
    var n := Min(byteCount, |s.buffer|);
    AdvancedByTaking(s, 0, s, n);
    assert Stream(s)[..n] == s.buffer[..n];
    Step(Ok(ArrayRead(n, Overwrite(data, offset, s.buffer[..n]))), s.(buffer := s.buffer[n..]))
  }

  /**
   * `read(data, offset, byteCount)`: copies what is buffered, at most `byteCount` bytes, pulling
   * one segment first only if nothing is buffered.
   */
  function ReadInto(s: State, data: seq<byte>, offset: nat, byteCount: nat): (r: Step<ArrayRead>)
    ensures s.closed ==> r == Step(Fail(IoError), s)
    ensures !s.closed && |data| < offset + byteCount ==> r == Step(Fail(IndexOutOfBounds), s)
    ensures !s.closed && offset + byteCount <= |data| ==> r.result.Ok?
    ensures r.result.Ok? ==> (r.result.value.count == -1 <==> Stream(s) == [])
    ensures r.result.Ok? && r.result.value.count == -1 ==> r.next == s && r.result.value.data == data
    // only already-buffered bytes are returned; the source is read at most once, and only when
    // nothing was buffered
    ensures r.result.Ok? && r.result.value.count >= 0 ==>
              var n := r.result.value.count;
              && n == Min(byteCount, |s.buffer| + Quota(s, 1))
              && Advanced(s, 1, n, r.next)
              && r.result.value.data == Overwrite(data, offset, Stream(s)[..n])
  {
    if s.closed then Step(Fail(IoError), s)
    else if |data| < offset + byteCount then Step(Fail(IndexOutOfBounds), s)
    else if |s.buffer| == 0 then
      match Pull(s)
      case None => Step(Ok(ArrayRead(-1, data)), s)
      case Some(s1) =>
        var r1 := CopyBuffered(s1, data, offset, byteCount);
        AdvancedByTaking(s1, 1, s1, r1.result.value.count);
        AdvancedAfterPull(s, 1, r1.result.value.count, r1.next);
        r1
    else
      var r1 := CopyBuffered(s, data, offset, byteCount);
      AdvancedByTaking(s, 1, s, r1.result.value.count);
      r1
  }

  /** With bytes buffered, `read(data, offset, byteCount)` returns only those and leaves the source alone. */
  lemma ReadIntoUsesBufferOnly(s: State, data: seq<byte>, offset: nat, byteCount: nat)
    requires !s.closed && s.buffer != [] && offset + byteCount <= |data|
    ensures
      var r := ReadInto(s, data, offset, byteCount);
      var n := Min(byteCount, |s.buffer|);
      && r.result.Ok? && r.result.value.count == n
      && r.result.value.data[offset..offset + n] == s.buffer[..n]
      && r.next.source == s.source
      && r.next.buffer == s.buffer[n..]
  {
    var r := ReadInto(s, data, offset, byteCount);
    var n := Min(byteCount, |s.buffer|);
    assert Stream(s)[..n] == s.buffer[..n];
    assert Stream(r.next) == s.buffer[n..] + s.source.data;
    AppendCancel(r.next.buffer, s.buffer[n..], s.source.data);
  }

  /** `read(data)`: `read(data, 0, data.length)`. */
  function ReadArray(s: State, data: seq<byte>): (r: Step<ArrayRead>)
    ensures s.closed ==> r == Step(Fail(IoError), s)
    ensures !s.closed ==> r.result.Ok? && (r.result.value.count == -1 <==> Stream(s) == [])
    ensures r.result.Ok? && r.result.value.count >= 0 ==>
              && r.result.value.count == Min(|data|, |s.buffer| + Quota(s, 1))
              && r.result.value.data == Overwrite(data, 0, Stream(s)[..r.result.value.count])
              && Stream(r.next) == Stream(s)[r.result.value.count..]
  {
    ReadInto(s, data, 0, |data|)
  }

  /** `available()`: the buffered byte count as an `int`; it never pulls from the source. */
  function Available(s: State): (r: Step<int>)
    ensures s.closed ==> r == Step(Fail(IoError), s)
    ensures r.next == s
    ensures !s.closed ==> r.result.Ok? && 0 <= r.result.value <= |s.buffer|
    ensures !s.closed && |s.buffer| <= INT_MAX ==> r.result == Ok(|s.buffer|)
    ensures !s.closed && |s.buffer| > INT_MAX ==> r.result == Ok(INT_MAX)
  {
    if s.closed then Step(Fail(IoError), s)
    else Step(Ok(Min(|s.buffer|, INT_MAX)), s)
  }

  /** `close()` on the stream closes the reader it views. */
  function Close(s: State): (r: State)
    ensures r.closed
    ensures s.closed ==> r == s
    ensures !s.closed ==> r.buffer == [] && r.source.closeCalls == s.source.closeCalls + 1
  {
    RealBufferedSource.Close(s)
  }
}

=== FILE: outcomes.dfy ===
/** How an operation of the buffered source ends. */
module Outcomes {

  /**
   * The failure kinds the buffered source distinguishes. They are kept apart on purpose:
   * a caller must be able to tell running out of data from using a closed reader.
   */
  datatype Failure =
    | EndOfStream        // java.io.EOFException: the source ran dry before the request was met
    | ClosedState        // IllegalStateException("closed"): the reader was used after close()
    | IoError            // IOException("closed"): the stream adapter was used after close()
    | IndexOutOfBounds   // the adapter's offset/count do not fit the caller's array

  datatype Outcome<+T> = Ok(value: T) | Fail(error: Failure)

  datatype Option<+T> = None | Some(value: T)
}

=== FILE: real_buffered_source.dfy ===
/**
 * The buffered reader (`RealBufferedSource`): an internal buffer filled from an underlying
 * source one segment-sized pull at a time, and a `closed` flag that, once set, makes every
 * operation other than `close()` fail.
 *
 * Every operation is a pure transition from a `State` to a `Step`: the outcome the caller
 * sees and the state left behind. The pull loops are recursive on the bytes the source still
 * holds. Every pull loop except `readAll`'s is characterised by one reference, `Quota`: the
 * exact number of bytes whole pulls must take from the source to get a given number of bytes
 * buffered. The `readAll` loop (`Drain`) is characterised by its writes instead: they
 * concatenate back to the stream and, from an empty buffer, are the `Chunks` of the source.
 */
module RealBufferedSource {
  import opened Bytes
  import opened Outcomes
  import opened Sources

  /** Java's `Long.MAX_VALUE`: the end index `indexOf(b)` searches up to. */
  const LONG_MAX: nat := 0x7fff_ffff_ffff_ffff

  /** The wrapped source, the bytes already pulled into the internal buffer, and the flag. */
  datatype State = State(source: Source, buffer: seq<byte>, closed: bool)

  /** What an operation returns (or raises), and the state it leaves. */
  datatype Step<+T> = Step(result: Outcome<T>, next: State)

  /** Everything not yet consumed, in delivery order: the buffered bytes, then the source's. */
  function Stream(s: State): seq<byte>
  {
    s.buffer + s.source.data
  }

  /** `new RealBufferedSource(source)`: nothing buffered yet, open. */
  function Open(data: seq<byte>, cap: ReadCap): (s: State)
    ensures Stream(s) == data && s.buffer == []
    ensures !s.closed && s.source.closeCalls == 0 && s.source.cap == cap
  {
    State(Source(data, cap, 0), [], false)
  }

  /**
   * One `source.read(buffer, Segment.SIZE)`: moves the next (throttled) segment's worth of the
   * source to the end of the buffer; `None` when the source reports end of stream.
   */
  function Pull(s: State): (r: Option<State>)
    ensures r.None? <==> s.source.data == []
    ensures r.Some? ==>
              var k := Min(Chunk(s.source.cap), |s.source.data|);
              && r.value.buffer == s.buffer + s.source.data[..k]
              && r.value.source == s.source.(data := s.source.data[k..])
              && r.value.closed == s.closed
    ensures r.Some? ==> Stream(r.value) == Stream(s)
  {
    var t := ReadTo(s.source, s.buffer, SEGMENT_SIZE);
    if t.count == -1 then None
    else
      SplitAt(s.source.data, t.count);
      Some(s.(source := t.source, buffer := t.sink))
  }

  /**
   * The bytes a pull loop takes from the source to get `need` bytes buffered: none when the
   * buffer already holds them, otherwise whole pulls until the shortfall is covered or the
   * source is empty.
   */
  function Quota(s: State, need: nat): (k: nat)
    ensures k <= |s.source.data|
    ensures need <= |s.buffer| ==> k == 0
    // enough bytes end up buffered, or the source gave everything it had
    ensures need <= |s.buffer| + k || k == |s.source.data|
    // it stops as soon as the buffer is satisfied: the last pull was needed
    ensures k > 0 ==> |s.buffer| + k < need + Chunk(s.source.cap)
  {
    if need <= |s.buffer| then 0
    else Min(|s.source.data|, RoundUp(need - |s.buffer|, Chunk(s.source.cap)))
  }

  /** Buffering without consuming leaves the stream as it was and the source's other fields alone. */
  lemma AdvancedNothing(s: State, need: nat, t: State)
    requires Advanced(s, need, 0, t)
    ensures Stream(t) == Stream(s)
    ensures t.closed == s.closed && t.source.closeCalls == s.source.closeCalls
  {
  }

  /** Consuming `consumed` bytes splits the stream there, and leaves the flag and close count alone. */
  lemma AdvancedSplit(s: State, need: nat, consumed: nat, t: State)
    requires Advanced(s, need, consumed, t)
    ensures Stream(s) == Stream(s)[..consumed] + Stream(t)
    ensures t.closed == s.closed && t.source.closeCalls == s.source.closeCalls
  {
    SplitAt(Stream(s), consumed);
  }

  /** A need that one pull can cover, from an empty buffer, takes exactly one pull. */
  lemma QuotaWithinOnePull(s: State, need: nat)
    requires s.buffer == [] && 0 < need <= Chunk(s.source.cap)
    ensures Quota(s, need) == Min(Chunk(s.source.cap), |s.source.data|)
  {
  }

  /**
   * `t` is what `s` becomes when the source gives up exactly `Quota(s, need)` bytes and the
   * first `consumed` bytes of the stream are taken by the caller; the flag is unchanged.
   */
  ghost predicate Advanced(s: State, need: nat, consumed: nat, t: State)
  {
    && t.source == s.source.(data := s.source.data[Quota(s, need)..])
    && consumed <= |Stream(s)|
    && Stream(t) == Stream(s)[consumed..]
    && t.closed == s.closed
  }

  /** One pull covers part of the shortfall; the quota of the rest is what remains of it. */
  lemma QuotaAfterPull(s: State, need: nat)
    requires |s.buffer| < need && s.source.data != []
    ensures Quota(Pull(s).value, need) + Min(Chunk(s.source.cap), |s.source.data|) == Quota(s, need)
  {
    var c := Chunk(s.source.cap);
    var x := need - |s.buffer|;
    if x > c {
      assert RoundUp(x, c) == c + RoundUp(x - c, c);
    }
  }

  lemma AdvancedAfterPull(s: State, need: nat, consumed: nat, t: State)
    requires |s.buffer| < need && s.source.data != []
    requires Advanced(Pull(s).value, need, consumed, t)
    ensures Advanced(s, need, consumed, t)
  {
    QuotaAfterPull(s, need);
    var d := s.source.data;
    var m := Min(Chunk(s.source.cap), |d|);
    assert d[m..][Quota(Pull(s).value, need)..] == d[Quota(s, need)..];
  }

  /** Taking `n` buffered bytes first shortens the need by `n` and leaves the quota alone. */
  lemma AdvancedAfterTake(s: State, n: nat, need: nat, consumed: nat, t: State)
    requires n <= |s.buffer| && n <= need && n <= consumed
    requires Advanced(s.(buffer := s.buffer[n..]), need - n, consumed - n, t)
    ensures Advanced(s, need, consumed, t)
  {
    var s' := s.(buffer := s.buffer[n..]);
    assert Quota(s', need - n) == Quota(s, need);
    assert Stream(s') == Stream(s)[n..];
    assert Stream(s)[n..][consumed - n..] == Stream(s)[consumed..];
  }

  /** Taking the first `n` bytes of a buffer that holds them. */
  lemma AdvancedByTaking(s: State, need: nat, t: State, n: nat)
    requires Advanced(s, need, 0, t) && n <= |t.buffer|
    ensures Advanced(s, need, n, t.(buffer := t.buffer[n..]))
  {
    assert Stream(t.(buffer := t.buffer[n..])) == Stream(t)[n..];
  }

  /** After a fill, the buffer is the old buffer followed by exactly the quota's prefix of the source. */
  lemma AdvancedBuffer(s: State, need: nat, t: State)
    requires Advanced(s, need, 0, t)
    ensures t.buffer == s.buffer + s.source.data[..Quota(s, need)]
  {
    var d := s.source.data;
    var k := Quota(s, need);
    SplitAt(d, k);
    assert Stream(t) == (s.buffer + d[..k]) + d[k..];
    AppendCancel(t.buffer, s.buffer + d[..k], d[k..]);
  }

  // ---------------------------------------------------------------------------------------
  // request / require

  datatype Filling = Filling(satisfied: bool, next: State)

  /** The loop of `request`: pull while fewer than `need` bytes are buffered. */
  function Fill(s: State, need: nat): (r: Filling)
    ensures Advanced(s, need, 0, r.next)
    ensures r.satisfied <==> need <= |Stream(s)|
    ensures r.satisfied ==> need <= |r.next.buffer|
    decreases |s.source.data|
  {
    if need <= |s.buffer| then Filling(true, s)
    else
      match Pull(s)
      case None => Filling(false, s)
      case Some(s1) =>
        var r := Fill(s1, need);
        AdvancedAfterPull(s, need, 0, r.next);
        r
  }

  /** `request(byteCount)`: whether `byteCount` bytes could be buffered. */
  function Request(s: State, byteCount: nat): (r: Step<bool>)
    ensures s.closed ==> r == Step(Fail(ClosedState), s)
    ensures !s.closed ==> r.result.Ok? && Advanced(s, byteCount, 0, r.next)
    ensures !s.closed ==> (r.result.value <==> byteCount <= |Stream(s)|)
    ensures r.result == Ok(true) ==> byteCount <= |r.next.buffer|
  {
    if s.closed then Step(Fail(ClosedState), s)
    else
      var f := Fill(s, byteCount);
      Step(Ok(f.satisfied), f.next)
  }

  /** `require(byteCount)`: like `request`, but running dry is an `EOFException`. */
  function Require(s: State, byteCount: nat): (r: Step<()>)
    ensures s.closed ==> r == Step(Fail(ClosedState), s)
    ensures !s.closed ==> Advanced(s, byteCount, 0, r.next)
    ensures !s.closed ==> (r.result.Ok? <==> byteCount <= |Stream(s)|)
    ensures r.result.Ok? ==> byteCount <= |r.next.buffer|
    ensures !s.closed && r.result.Fail? ==> r.result.error == EndOfStream && r.next.source.data == []
  {
    var q := Request(s, byteCount);
    match q.result
    case Fail(e) => Step(Fail(e), q.next)
    case Ok(met) => if met then Step(Ok(()), q.next) else Step(Fail(EndOfStream), q.next)
  }

  /** Enough buffered bytes satisfy `require` on the spot: nothing is pulled. */
  lemma RequireUsesBufferFirst(s: State, byteCount: nat)
    requires !s.closed && byteCount <= |s.buffer|
    ensures Require(s, byteCount) == Step(Ok(()), s)
  {
    AdvancedBuffer(s, byteCount, Require(s, byteCount).next);
    assert s.source.data[0..] == s.source.data;
  }

  /**
   * Short of bytes, `require` appends a prefix of the source to the buffer, in order, and stops
   * within one pull of the target.
   */
  lemma RequireStopsWithinOnePull(s: State, byteCount: nat)
    requires !s.closed && |s.buffer| < byteCount <= |Stream(s)|
    ensures
      var t := Require(s, byteCount).next;
      var k := |t.buffer| - |s.buffer|;
      && 0 < k <= |s.source.data|
      && t.buffer == s.buffer + s.source.data[..k]
      && t.source.data == s.source.data[k..]
      && byteCount <= |t.buffer| < byteCount + Chunk(s.source.cap)
  {
    FilledWithinOnePull(s, byteCount, Require(s, byteCount).next);
  }

  lemma FilledWithinOnePull(s: State, need: nat, t: State)
    requires Advanced(s, need, 0, t) && |s.buffer| < need <= |t.buffer|
    ensures
      var k := |t.buffer| - |s.buffer|;
      && 0 < k <= |s.source.data|
      && t.buffer == s.buffer + s.source.data[..k]
      && t.source.data == s.source.data[k..]
      && need <= |t.buffer| < need + Chunk(s.source.cap)
  {
    AdvancedBuffer(s, need, t);
    var q := Quota(s, need);
    assert |t.buffer| == |s.buffer| + q;
  }

  // ---------------------------------------------------------------------------------------
  // readByte / readByteString

  /** `readByte()`: `require(1)`, then the first buffered byte. */
  function ReadByte(s: State): (r: Step<byte>)
    ensures s.closed ==> r == Step(Fail(ClosedState), s)
    ensures !s.closed ==> (r.result.Ok? <==> Stream(s) != [])
    ensures r.result.Ok? ==> r.result.value == Stream(s)[0] && Advanced(s, 1, 1, r.next)
    ensures !s.closed && r.result.Fail? ==> r.result.error == EndOfStream && Advanced(s, 1, 0, r.next)
  {
    var q := Require(s, 1);
    if q.result.Fail? then Step(Fail(q.result.error), q.next)
    else
      AdvancedByTaking(s, 1, q.next, 1);
      Step(Ok(q.next.buffer[0]), q.next.(buffer := q.next.buffer[1..]))
  }

  /** `readByteString(byteCount)`: `require(byteCount)`, then that many buffered bytes. */
  function ReadByteString(s: State, byteCount: nat): (r: Step<seq<byte>>)
    ensures s.closed ==> r == Step(Fail(ClosedState), s)
    ensures !s.closed ==> (r.result.Ok? <==> byteCount <= |Stream(s)|)
    ensures r.result.Ok? ==>
              r.result.value == Stream(s)[..byteCount] && Advanced(s, byteCount, byteCount, r.next)
    ensures !s.closed && r.result.Fail? ==>
              r.result.error == EndOfStream && Advanced(s, byteCount, 0, r.next)
  {
    var q := Require(s, byteCount);
    if q.result.Fail? then Step(Fail(q.result.error), q.next)
    else
      AdvancedByTaking(s, byteCount, q.next, byteCount);
      Step(Ok(q.next.buffer[..byteCount]), q.next.(buffer := q.next.buffer[byteCount..]))
  }

  // ---------------------------------------------------------------------------------------
  // skip

  /** `s` with its first `n` buffered bytes consumed. */
  function Taken(s: State, n: nat): (t: State)
    requires n <= |s.buffer|
    ensures Stream(t) == Stream(s)[n..]
    ensures t.source == s.source && t.closed == s.closed
  {
    s.(buffer := s.buffer[n..])
  }

  /** What skipping `byteCount` bytes from `s` must produce. */
  ghost predicate Skipped(s: State, byteCount: nat, r: Step<()>)
  {
    && (r.result.Ok? <==> byteCount <= |Stream(s)|)
    && (r.result.Ok? ==> Advanced(s, byteCount, byteCount, r.next))
    && (r.result.Fail? ==>
          r.result.error == EndOfStream && Advanced(s, byteCount, |Stream(s)|, r.next))
  }

  lemma SkippedAfterTake(s: State, n: nat, byteCount: nat, r: Step<()>)
    requires n <= |s.buffer| && n <= byteCount
    requires Skipped(Taken(s, n), byteCount - n, r)
    ensures Skipped(s, byteCount, r)
  {
    var consumed := if r.result.Ok? then byteCount else |Stream(s)|;
    AdvancedAfterTake(s, n, byteCount, consumed, r.next);
  }

  lemma SkippedAfterPull(s: State, byteCount: nat, r: Step<()>)
    requires |s.buffer| < byteCount && s.source.data != []
    requires Skipped(Pull(s).value, byteCount, r)
    ensures Skipped(s, byteCount, r)
  {
    var consumed := if r.result.Ok? then byteCount else |Stream(s)|;
    AdvancedAfterPull(s, byteCount, consumed, r.next);
  }

  /** The loop of `skip`: drain the buffer, pulling one segment whenever it is empty. */
  function Discard(s: State, byteCount: nat): (r: Step<()>)
    ensures Skipped(s, byteCount, r)
    decreases byteCount
  {
    if byteCount == 0 then
      assert Stream(s)[0..] == Stream(s);
      Step(Ok(()), s)
    else if |s.buffer| == 0 then
      match Pull(s)
      case None =>
        assert Stream(s)[0..] == Stream(s);
        Step(Fail(EndOfStream), s)
      case Some(s1) =>
        var n := Min(byteCount, |s1.buffer|);
        var r := Discard(Taken(s1, n), byteCount - n);
        SkippedAfterTake(s1, n, byteCount, r);
        SkippedAfterPull(s, byteCount, r);
        r
    else
      var n := Min(byteCount, |s.buffer|);
      var r := Discard(Taken(s, n), byteCount - n);
      SkippedAfterTake(s, n, byteCount, r);
      r
  }

  /** `skip(byteCount)`: discard that many bytes, the buffered ones first. */
  function Skip(s: State, byteCount: nat): (r: Step<()>)
    ensures s.closed ==> r == Step(Fail(ClosedState), s)
    ensures !s.closed ==> (r.result.Ok? <==> byteCount <= |Stream(s)|)
    ensures r.result.Ok? ==> Advanced(s, byteCount, byteCount, r.next)
    ensures !s.closed && r.result.Fail? ==>
              r.result.error == EndOfStream && Advanced(s, byteCount, |Stream(s)|, r.next)
    // the buffer is used before the source is touched
    ensures !s.closed && byteCount <= |s.buffer| ==>
              r.next.source == s.source && r.next.buffer == s.buffer[byteCount..]
  {
    if s.closed then Step(Fail(ClosedState), s)
    else
      var r := Discard(s, byteCount);
      if byteCount <= |s.buffer| then
        assert Stream(s)[byteCount..] == s.buffer[byteCount..] + s.source.data;
        assert r.next.source.data == s.source.data;
        AppendCancel(r.next.buffer, s.buffer[byteCount..], s.source.data);
        r
      else r
  }

  /** A skip the buffer cannot cover pulls only for the shortfall: less than one pull stays buffered. */
  lemma SkipBuffersLessThanOnePull(s: State, byteCount: nat)
    requires !s.closed && |s.buffer| < byteCount <= |Stream(s)|
    ensures |Skip(s, byteCount).next.buffer| < Chunk(s.source.cap)
  {
    var t := Skip(s, byteCount).next;
    assert |Stream(t)| == |Stream(s)| - byteCount;
  }

  // ---------------------------------------------------------------------------------------
  // indexOf

  /**
   * `b` occurs first at `i` among the indices `from .. to-1` of `stream`, or (`i == -1`)
   * not at all among those the stream has.
   */
  ghost predicate FirstIndex(stream: seq<byte>, b: byte, from: nat, to: nat, i: int)
  {
    if i == -1 then
      forall j :: from <= j < to && j < |stream| ==> stream[j] != b
    else
      && from <= i < to && i < |stream| && stream[i] == b
      && forall j :: from <= j < i ==> stream[j] != b
  }

  /** `Buffer.indexOf(b, from, to)`: a scan of the buffered bytes only, never of the source. */
  function ScanBuffer(buffer: seq<byte>, b: byte, from: nat, to: nat): (i: int)
    ensures FirstIndex(buffer, b, from, to, i)
    decreases |buffer| - from
  {
    if to <= from || |buffer| <= from then -1
    else if buffer[from] == b then from
    else ScanBuffer(buffer, b, from + 1, to)
  }

  /** How far a search of `[from, to)` must have buffered: through a hit, or up to `to` on a miss. */
  function Reach(to: nat, i: int): nat
  {
    if i < 0 then to else i + 1
  }

  /** What searching `s` for `b` in a non-empty range `[from, to)` must produce. */
  ghost predicate Searched(s: State, b: byte, from: nat, to: nat, r: Step<int>)
  {
    && r.result.Ok? && r.result.value < |r.next.buffer|
    && FirstIndex(Stream(s), b, from, to, r.result.value)
    && Advanced(s, Reach(to, r.result.value), 0, r.next)
  }

  /** A search that ends without pulling: a hit in the buffer, or a miss with nothing to pull. */
  lemma SearchedInBuffer(s: State, b: byte, from: nat, to: nat, i: int)
    requires from < to
    requires i == ScanBuffer(s.buffer, b, from, to)
    requires i == -1 ==> to <= |s.buffer| || s.source.data == []
    ensures Searched(s, b, from, to, Step(Ok(i), s))
  {
    assert Stream(s)[0..] == Stream(s);
    assert forall j :: 0 <= j < |s.buffer| ==> Stream(s)[j] == s.buffer[j];
  }

  lemma SearchedAfterPull(s: State, b: byte, from: nat, to: nat, r: Step<int>)
    requires from < to && |s.buffer| < to && s.source.data != []
    requires ScanBuffer(s.buffer, b, from, to) == -1 && Max(from, |s.buffer|) < to
    requires Searched(Pull(s).value, b, Max(from, |s.buffer|), to, r)
    ensures Searched(s, b, from, to, r)
  {
    var i := r.result.value;
    assert Stream(Pull(s).value) == Stream(s);
    PrefixOfAppend(s.buffer, s.source.data);
    FirstIndexPastBuffer(Stream(s), s.buffer, b, from, to, i);
    AdvancedAfterPull(s, Reach(to, i), 0, r.next);
  }

  /** A miss in the buffered prefix lets the search of the whole stream resume where the buffer ends. */
  lemma FirstIndexPastBuffer(stream: seq<byte>, buffer: seq<byte>, b: byte, from: nat, to: nat, i: int)
    requires |buffer| <= |stream| && stream[..|buffer|] == buffer
    requires ScanBuffer(buffer, b, from, to) == -1
    requires FirstIndex(stream, b, Max(from, |buffer|), to, i)
    ensures FirstIndex(stream, b, from, to, i)
  {
    assert forall j :: 0 <= j < |buffer| ==> stream[j] == stream[..|buffer|][j];
  }

  /**
   * The loop of `indexOf(b, from, to)`: scan what is buffered; on a miss, give up if the buffer
   * already reaches `to` or the source is empty, else pull one segment and scan on from where
   * the last scan stopped.
   */
  function Search(s: State, b: byte, from: nat, to: nat): (r: Step<int>)
    requires from < to
    ensures Searched(s, b, from, to, r)
    decreases |s.source.data|
  {
    var i := ScanBuffer(s.buffer, b, from, to);
    if i != -1 || to <= |s.buffer| then
      SearchedInBuffer(s, b, from, to, i);
      Step(Ok(i), s)
    else
      match Pull(s)
      case None =>
        SearchedInBuffer(s, b, from, to, i);
        Step(Ok(-1), s)
      case Some(s1) =>
        var r := Search(s1, b, Max(from, |s.buffer|), to);
        SearchedAfterPull(s, b, from, to, r);
        r
  }

  /** `indexOf(b, fromIndex, toIndex)`: search without pulling past `toIndex`; -1 on a miss. */
  function IndexOfRange(s: State, b: byte, fromIndex: nat, toIndex: nat): (r: Step<int>)
    ensures s.closed ==> r == Step(Fail(ClosedState), s)
    ensures !s.closed ==> r.result.Ok? && FirstIndex(Stream(s), b, fromIndex, toIndex, r.result.value)
    // a hit lies in the buffer, which was filled just far enough to reach it
    ensures r.result.Ok? && r.result.value >= 0 ==>
              r.result.value < |r.next.buffer| && Advanced(s, r.result.value + 1, 0, r.next)
    // a miss filled the buffer up to the limit and no further
    ensures r.result.Ok? && r.result.value == -1 && fromIndex < toIndex ==> Advanced(s, toIndex, 0, r.next)
    ensures !s.closed && toIndex <= fromIndex ==> r.next == s
  {
    if s.closed then Step(Fail(ClosedState), s)
    else if toIndex <= fromIndex then Step(Ok(-1), s)
    else Search(s, b, fromIndex, toIndex)
  }

  /** `indexOf` only buffers: the stream, the closed flag and the close count are as they were. */
  lemma IndexOfKeepsStream(s: State, b: byte, fromIndex: nat, toIndex: nat)
    ensures var r := IndexOfRange(s, b, fromIndex, toIndex);
            && Stream(r.next) == Stream(s)
            && r.next.closed == s.closed && r.next.source.closeCalls == s.source.closeCalls
  {
    var r := IndexOfRange(s, b, fromIndex, toIndex);
    if s.closed || toIndex <= fromIndex {
    } else if r.result.value >= 0 {
      AdvancedNothing(s, r.result.value + 1, r.next);
    } else {
      AdvancedNothing(s, toIndex, r.next);
    }
  }

  /**
   * On a source that yields one byte per read, a miss pulls exactly the bytes up to the limit
   * and none beyond, whatever the source holds after it.
   */
  lemma IndexOfMissPullsToLimit(s: State, b: byte, toIndex: nat)
    requires !s.closed && s.buffer == [] && s.source.cap == AtMost(1) && 0 < toIndex
    requires forall j :: 0 <= j < toIndex && j < |s.source.data| ==> s.source.data[j] != b
    ensures
      var r := IndexOfRange(s, b, 0, toIndex);
      && r.result == Ok(-1)
      && r.next.source.data == s.source.data[Min(toIndex, |s.source.data|)..]
      && r.next.buffer == s.source.data[..Min(toIndex, |s.source.data|)]
  {
    var r := IndexOfRange(s, b, 0, toIndex);
    assert Stream(s) == s.source.data;
    assert Chunk(s.source.cap) == 1;
    assert Quota(s, toIndex) == Min(toIndex, |s.source.data|);
  }

  /** `indexOf(b)`: `indexOf(b, 0, Long.MAX_VALUE)`. */
  function IndexOf(s: State, b: byte): (r: Step<int>)
    ensures s.closed ==> r == Step(Fail(ClosedState), s)
    ensures !s.closed ==> r.result.Ok? && FirstIndex(Stream(s), b, 0, LONG_MAX, r.result.value)
    ensures r.result.Ok? ==> Stream(r.next) == Stream(s)
  {
    IndexOfRange(s, b, 0, LONG_MAX)
  }

  // ---------------------------------------------------------------------------------------
  // readAll

  /** What `readAll(sink)` returns, and the writes the sink received, in order. */
  datatype SinkLog = SinkLog(total: nat, writes: seq<seq<byte>>)

  datatype Drained = Drained(total: nat, writes: seq<seq<byte>>, next: State)

  /** No write exceeds one pull, except a final flush of the `pending` bytes buffered beforehand. */
  ghost predicate SegmentSized(writes: seq<seq<byte>>, c: nat, pending: nat)
  {
    forall i :: 0 <= i < |writes| ==>
      && 0 < |writes[i]|
      && (|writes[i]| <= c || (i == |writes| - 1 && |writes[i]| == pending))
  }

  /** What draining `s` into a sink must produce. */
  ghost predicate DrainedAll(s: State, r: Drained)
  {
    && Flatten(r.writes) == Stream(s)
    && r.total == |Stream(s)|
    && r.next == s.(buffer := [], source := s.source.(data := []))
    && (s.buffer == [] ==> r.writes == Chunks(s.source.data, Chunk(s.source.cap)))
    && SegmentSized(r.writes, Chunk(s.source.cap), |s.buffer|)
  }

  lemma DrainedAfterPull(s: State, rest: Drained)
    requires s.source.data != []
    requires
      var t := ReadTo(s.source, s.buffer, SEGMENT_SIZE);
      DrainedAll(s.(source := t.source, buffer := t.sink[t.count..]), rest)
    ensures
      var t := ReadTo(s.source, s.buffer, SEGMENT_SIZE);
      DrainedAll(s, Drained(t.count + rest.total, [t.sink[..t.count]] + rest.writes, rest.next))
  {
    var t := ReadTo(s.source, s.buffer, SEGMENT_SIZE);
    var n := t.count;
    var s1 := s.(source := t.source, buffer := t.sink[n..]);
    var ws := [t.sink[..n]] + rest.writes;
    DrainedBytesAfterPull(s.buffer, s.source.data, n, t.sink, rest.writes);
    SegmentSizedAfterPull(t.sink[..n], rest.writes, Chunk(s.source.cap), |s.buffer|);
    if s.buffer == [] {
      DrainedChunksAfterPull(s, t, rest.writes);
    }
  }

  /** Writing the first `n` bytes of `buffer ++ d[..n]` and then the rest delivers `buffer ++ d`. */
  lemma DrainedBytesAfterPull(buffer: seq<byte>, d: seq<byte>, n: nat, sink: seq<byte>, writes: seq<seq<byte>>)
    requires n <= |d| && sink == buffer + d[..n]
    requires Flatten(writes) == sink[n..] + d[n..]
    ensures Flatten([sink[..n]] + writes) == buffer + d
  {
    FlattenCons(sink[..n], writes);
    SplitAt(sink, n);
    SplitAt(d, n);
    calc {
      sink[..n] + Flatten(writes);
      (sink[..n] + sink[n..]) + d[n..];
      (buffer + d[..n]) + d[n..];
      buffer + (d[..n] + d[n..]);
    }
  }

  lemma SegmentSizedAfterPull(w: seq<byte>, writes: seq<seq<byte>>, c: nat, pending: nat)
    requires 0 < |w| <= c
    requires SegmentSized(writes, c, pending)
    ensures SegmentSized([w] + writes, c, pending)
  {
    var ws := [w] + writes;
    assert forall i :: 1 <= i < |ws| ==> ws[i] == writes[i - 1];
  }

  lemma DrainedChunksAfterPull(s: State, t: Transfer, writes: seq<seq<byte>>)
    requires s.buffer == [] && s.source.data != []
    requires t == ReadTo(s.source, s.buffer, SEGMENT_SIZE)
    requires writes == Chunks(t.source.data, Chunk(s.source.cap))
    ensures [t.sink[..t.count]] + writes == Chunks(s.source.data, Chunk(s.source.cap))
  {
    var c := Chunk(s.source.cap);
    var d := s.source.data;
    assert t.sink[..t.count] == d[..t.count];
    if |d| <= c {
      assert d[..t.count] == d;
      assert t.source.data == [];
    } else {
      assert t.count == c;
    }
  }

  /**
   * The loop of `readAll`: pull one segment, hand exactly the pulled count to the sink, repeat
   * until the source is exhausted; then flush whatever is still buffered.
   */
  function Drain(s: State): (r: Drained)
    ensures DrainedAll(s, r)
    decreases |s.source.data|
  {
    var t := ReadTo(s.source, s.buffer, SEGMENT_SIZE);
    if t.count == -1 then
      if |s.buffer| > 0 then
        assert Flatten([s.buffer]) == s.buffer + Flatten([]);
        Drained(|s.buffer|, [s.buffer], s.(buffer := []))
      else Drained(0, [], s)
    else
      var rest := Drain(s.(source := t.source, buffer := t.sink[t.count..]));
      DrainedAfterPull(s, rest);
      Drained(t.count + rest.total, [t.sink[..t.count]] + rest.writes, rest.next)
  }

  /** `readAll(sink)`: move every remaining byte to the sink, a segment at a time. */
  function ReadAll(s: State): (r: Step<SinkLog>)
    ensures s.closed ==> r == Step(Fail(ClosedState), s)
    ensures !s.closed ==> r.result.Ok?
    ensures r.result.Ok? ==>
              && Flatten(r.result.value.writes) == Stream(s)
              && r.result.value.total == |Stream(s)|
              && r.next == s.(buffer := [], source := s.source.(data := []))
              && SegmentSized(r.result.value.writes, Chunk(s.source.cap), |s.buffer|)
    ensures r.result.Ok? && s.buffer == [] ==>
              r.result.value.writes == Chunks(s.source.data, Chunk(s.source.cap))
  {
    if s.closed then Step(Fail(ClosedState), s)
    else
      var d := Drain(s);
      Step(Ok(SinkLog(d.total, d.writes)), d.next)
  }

  // ---------------------------------------------------------------------------------------
  // close

  /**
   * `close()`: the first call marks the reader closed, closes the underlying source and drops
   * the buffered bytes; later calls do nothing.
   */
  function Close(s: State): (r: State)
    ensures r.closed
    ensures s.closed ==> r == s
    ensures !s.closed ==>
              && r.buffer == []
              && r.source.data == s.source.data && r.source.cap == s.source.cap
              && r.source.closeCalls == s.source.closeCalls + 1
  {
    if s.closed then s
    else State(Sources.Close(s.source), [], true)
  }
}

=== FILE: real_buffered_source_test.dfy ===
/**
 * The scenarios of `RealBufferedSourceTest`, each stated as a lemma about the reader the test
 * builds, with the segment size left abstract, and each proved from the general contracts.
 * ASCII letters stand for themselves: 'a' is 97, 'b' 98, and so on.
 */
module RealBufferedSourceTest {
  import opened Bytes
  import opened Outcomes
  import opened Sources
  import opened RealBufferedSource
  import InputStreamAdapter

  const A: byte := 97
  const B: byte := 98
  const C: byte := 99

  /** Reading one byte through the stream buffers one full segment, and no more. */
  lemma InputStreamTracksSegments(s0: State)
    requires s0 == Open([A] + Repeat(B, SEGMENT_SIZE) + [C], Unthrottled)
    ensures
      var r1 := InputStreamAdapter.Read(s0);
      var r2 := InputStreamAdapter.ReadInto(r1.next, Repeat(0, 2 * SEGMENT_SIZE), 0, 2 * SEGMENT_SIZE);
      var r3 := InputStreamAdapter.Read(r2.next);
      var r4 := InputStreamAdapter.Read(r3.next);
      var r5 := InputStreamAdapter.Read(r4.next);
      && InputStreamAdapter.Available(s0).result == Ok(0) && |s0.source.data| == SEGMENT_SIZE + 2
      && r1.result == Ok(A as int)
      && InputStreamAdapter.Available(r1.next).result == Ok(SEGMENT_SIZE - 1) && |r1.next.source.data| == 2
      && r2.result.Ok? && r2.result.value.count == SEGMENT_SIZE - 1
      && r2.result.value.data[..SEGMENT_SIZE - 1] == Repeat(B, SEGMENT_SIZE - 1)
      && |r2.next.source.data| == 2
      && r3.result == Ok(B as int)
      && InputStreamAdapter.Available(r3.next).result == Ok(1) && |r3.next.source.data| == 0
      && r4.result == Ok(C as int)
      && InputStreamAdapter.Available(r4.next).result == Ok(0) && |r4.next.source.data| == 0
      && r5.result == Ok(-1) && |r5.next.source.data| == 0
  {
    var seg: nat := SEGMENT_SIZE;
    var s1 := Open([B, C], Unthrottled).(buffer := Repeat(B, seg - 1));
    var s2 := Open([B, C], Unthrottled);
    var s3 := Open([], Unthrottled).(buffer := [C]);
    var s4 := Open([], Unthrottled);
    ReadTakesFirstOfSegment(s0, s1);
    ReadArrayTakesRestOfSegment(s1, s2, Repeat(0, 2 * seg));
    ReadPullsLastTwo(s2, s3);
    ReadLastBuffered(s3, s4);
    assert |s1.buffer| == seg - 1 && seg - 1 <= InputStreamAdapter.INT_MAX;
    assert InputStreamAdapter.Available(s0).result == Ok(0);
    assert InputStreamAdapter.Available(s1).result == Ok(seg - 1);
    assert InputStreamAdapter.Available(s3).result == Ok(1);
    assert InputStreamAdapter.Available(s4).result == Ok(0);
  }

  lemma ReadTakesFirstOfSegment(s0: State, s1: State)
    requires s0 == Open([A] + Repeat(B, SEGMENT_SIZE) + [C], Unthrottled)
    requires s1 == Open([B, C], Unthrottled).(buffer := Repeat(B, SEGMENT_SIZE - 1))
    ensures InputStreamAdapter.Read(s0) == Step(Ok(A as int), s1)
  {
    SegmentBetween(s0.source.data, SEGMENT_SIZE);
    InputStreamAdapter.ReadPullsOneSegment(s0);
  }

  /** The pieces of 'a', then `n` of 'b', then 'c', as the first read cuts them. */
  lemma SegmentBetween(d: seq<byte>, n: nat)
    requires 2 <= n && d == [A] + Repeat(B, n) + [C]
    ensures |d| == n + 2 && d[0] == A && Min(n, |d|) == n
    ensures d[1..n] == Repeat(B, n - 1) && d[n..] == [B, C]
  {
    assert forall i :: 1 <= i <= n ==> d[i] == B;
    assert d[n + 1] == C;
  }

  lemma ReadArrayTakesRestOfSegment(s1: State, s2: State, zeros: seq<byte>)
    requires s1 == Open([B, C], Unthrottled).(buffer := Repeat(B, SEGMENT_SIZE - 1))
    requires s2 == Open([B, C], Unthrottled)
    requires zeros == Repeat(0, 2 * SEGMENT_SIZE)
    ensures
      var r := InputStreamAdapter.ReadInto(s1, zeros, 0, 2 * SEGMENT_SIZE);
      && r.result.Ok? && r.result.value.count == SEGMENT_SIZE - 1
      && r.result.value.data[..SEGMENT_SIZE - 1] == Repeat(B, SEGMENT_SIZE - 1)
      && r.next == s2
  {
    var seg: nat := SEGMENT_SIZE;
    InputStreamAdapter.ReadIntoUsesBufferOnly(s1, zeros, 0, 2 * seg);
    assert s1.buffer[..seg - 1] == s1.buffer;
  }

  lemma ReadPullsLastTwo(s2: State, s3: State)
    requires s2 == Open([B, C], Unthrottled)
    requires s3 == Open([], Unthrottled).(buffer := [C])
    ensures InputStreamAdapter.Read(s2) == Step(Ok(B as int), s3)
  {
    InputStreamAdapter.ReadPullsOneSegment(s2);
    assert Min(Chunk(Unthrottled), 2) == 2;
  }

  lemma ReadLastBuffered(s3: State, s4: State)
    requires s3 == Open([], Unthrottled).(buffer := [C])
    requires s4 == Open([], Unthrottled)
    ensures InputStreamAdapter.Read(s3) == Step(Ok(C as int), s4)
  {
    assert Quota(s3, 1) == 0;
    assert |Stream(InputStreamAdapter.Read(s3).next)| == 0;
  }

  /** Closing the stream view closes the reader: `require` then fails as closed. */
  lemma InputStreamCloses(s0: State)
    requires s0 == Open([], Unthrottled)
    ensures Require(InputStreamAdapter.Close(s0), 1).result == Fail(ClosedState)
  {
  }

  /** On a source that yields one byte per read, a miss pulls exactly up to the limit. */
  lemma IndexOfStopsReadingAtLimit(s0: State)
    requires s0 == Open([97, 98, 99, 100, 101, 102], AtMost(1))
    ensures
      var r := IndexOfRange(s0, 101, 0, 4);
      && |s0.source.data| == 6
      && r.result == Ok(-1)
      && |r.next.source.data| == 2
  {
    IndexOfMissPullsToLimit(s0, 101, 4);
  }

  /** Bytes already buffered satisfy `require` without touching the source. */
  lemma RequireTracksBufferFirst(s0: State)
    requires s0 == Open([B, B], Unthrottled).(buffer := [A, A])
    ensures
      var r := Require(s0, 2);
      |r.next.buffer| == 2 && |r.next.source.data| == 2
  {
    RequireUsesBufferFirst(s0, 2);
  }

  /** `require` counts the buffered bytes and pulls only the shortfall. */
  lemma RequireIncludesBufferBytes(s0: State)
    requires s0 == Open([B], Unthrottled).(buffer := [A])
    ensures
      var r := Require(s0, 2);
      r.result.Ok? && r.next.buffer == [A, B]
  {
    RequireStopsWithinOnePull(s0, 2);
  }

  /** Running dry during `require` is end of stream, not the closed error. */
  lemma RequireInsufficientData(s0: State)
    requires s0 == Open([A], Unthrottled)
    ensures Require(s0, 2).result == Fail(EndOfStream)
  {
  }

  /** `require(2)` on two full segments pulls one segment only. */
  lemma RequireReadsOneSegmentAtATime(s0: State)
    requires s0 == Open(Repeat(A, SEGMENT_SIZE) + Repeat(B, SEGMENT_SIZE), Unthrottled)
    ensures
      var r := Require(s0, 2);
      |r.next.source.data| == SEGMENT_SIZE && |r.next.buffer| == SEGMENT_SIZE
  {
    QuotaWithinOnePull(s0, 2);
    assert |s0.source.data| == 2 * SEGMENT_SIZE;
  }

  /** `skip(2)` on two full segments pulls one segment and discards two of its bytes. */
  lemma SkipReadsOneSegmentAtATime(s0: State)
    requires s0 == Open(Repeat(A, SEGMENT_SIZE) + Repeat(B, SEGMENT_SIZE), Unthrottled)
    ensures
      var r := Skip(s0, 2);
      |r.next.source.data| == SEGMENT_SIZE && |r.next.buffer| == SEGMENT_SIZE - 2
  {
    QuotaWithinOnePull(s0, 2);
    assert |s0.source.data| == 2 * SEGMENT_SIZE;
  }

  /** Bytes already buffered are skipped first; the source is untouched. */
  lemma SkipTracksBufferFirst(s0: State)
    requires s0 == Open([B, B], Unthrottled).(buffer := [A, A])
    ensures
      var r := Skip(s0, 2);
      |r.next.buffer| == 0 && |r.next.source.data| == 2
  {
  }

  /** After `close()`, even on an empty source, reads fail as closed, not as end of stream. */
  lemma OperationsAfterClose(s0: State)
    requires s0 == Open([], Unthrottled)
    ensures
      var s := RealBufferedSource.Close(s0);
      && IndexOf(s, 1).result == Fail(ClosedState)
      && Skip(s, 1).result == Fail(ClosedState)
      && ReadByte(s).result == Fail(ClosedState)
      && ReadByteString(s, 10).result == Fail(ClosedState)
      && InputStreamAdapter.Read(s).result == Fail(IoError)
      && InputStreamAdapter.ReadArray(s, Repeat(0, 10)).result == Fail(IoError)
  {
  }

  /** `readAll` hands the sink one segment per pull, in order, and returns the byte total. */
  lemma ReadAllReadsOneSegmentAtATime(s0: State)
    requires s0 == Open(Repeat(A, SEGMENT_SIZE) + Repeat(B, SEGMENT_SIZE) + Repeat(C, SEGMENT_SIZE), Unthrottled)
    ensures
      var r := ReadAll(s0);
      r.result == Ok(SinkLog(3 * SEGMENT_SIZE,
                             [Repeat(A, SEGMENT_SIZE), Repeat(B, SEGMENT_SIZE), Repeat(C, SEGMENT_SIZE)]))
  {
    var seg: nat := SEGMENT_SIZE;
    var w1, w2, w3 := Repeat(A, seg), Repeat(B, seg), Repeat(C, seg);
    ChunksCons(w2, w3, seg);
    ChunksCons(w1, w2 + w3, seg);
    assert Chunks(w3, seg) == [w3];
    assert s0.source.data == w1 + (w2 + w3);
    assert Chunk(Unthrottled) == seg;
    assert Chunks(s0.source.data, seg) == [w1, w2, w3];
    assert |Stream(s0)| == 3 * seg;
  }
}

=== FILE: sessions.dfy ===
/**
 * Sequences of calls on one buffered reader, and the facts that hold across them: the bytes
 * come off the stream in order with nothing lost or repeated, a closed reader stays closed and
 * refuses every call other than `close()`, and the underlying source is closed at most once.
 */
module Sessions {
  import opened Bytes
  import opened Outcomes
  import RealBufferedSource
  import InputStreamAdapter

  type State = RealBufferedSource.State

  /** One call on the reader or on its `inputStream()` view. */
  datatype Op =
    | Request(byteCount: nat)
    | Require(byteCount: nat)
    | Skip(byteCount: nat)
    | IndexOf(b: byte, fromIndex: nat, toIndex: nat)
    | ReadByte
    | ReadByteString(byteCount: nat)
    | ReadAll
    | Close
    | StreamRead
    | StreamReadInto(data: seq<byte>, offset: nat, byteCount: nat)
    | StreamAvailable
    | StreamClose

  /**
   * A call's failure (if any), the bytes it took off the stream (returned, skipped, written to
   * the sink, or dropped by `close`), and the state after it.
   */
  datatype Applied = Applied(failure: Option<Failure>, consumed: seq<byte>, next: State)

  function FailureOf<T>(o: Outcome<T>): Option<Failure>
  {
    match o
    case Ok(_) => None
    case Fail(e) => Some(e)
  }

  /** The call took a prefix of the stream and left the rest, in order. */
  ghost predicate Conserves(s: State, a: Applied)
  {
    RealBufferedSource.Stream(s) == a.consumed + RealBufferedSource.Stream(a.next)
  }

  /** The call left the closed flag and the source's close count as they were. */
  predicate Keeps(s: State, t: State)
  {
    t.closed == s.closed && t.source.closeCalls == s.source.closeCalls
  }

  /** The failure each call must report on a closed reader. */
  function ClosedFailure(op: Op): (f: Option<Failure>)
  {
    match op
    case Close | StreamClose => None
    case StreamRead | StreamReadInto(_, _, _) | StreamAvailable => Some(IoError)
    case _ => Some(ClosedState)
  }

  predicate Closes(op: Op)
  {
    op.Close? || op.StreamClose?
  }

  /**
   * What every call promises: it takes a prefix of the stream and leaves the rest, in order;
   * only a close closes the reader, and only the first close closes the source; on a closed
   * reader it reports `ClosedFailure(op)` and changes nothing.
   */
  ghost predicate Behaves(s: State, op: Op, a: Applied)
  {
    && Conserves(s, a)
    && (!Closes(op) ==> Keeps(s, a.next))
    && (Closes(op) ==> a.next.closed)
    && (Closes(op) ==> a.next.source.closeCalls == s.source.closeCalls + (if s.closed then 0 else 1))
    && (s.closed ==> a == Applied(ClosedFailure(op), [], s))
  }

  function RequestCall(s: State, n: nat): Applied
  {
    var r := RealBufferedSource.Request(s, n);
    Applied(FailureOf(r.result), [], r.next)
  }

  function RequireCall(s: State, n: nat): Applied
  {
    var r := RealBufferedSource.Require(s, n);
    Applied(FailureOf(r.result), [], r.next)
  }

  /** `skip(n)` takes the bytes it skipped: all `n`, or on end of stream all there were. */
  function SkipCall(s: State, n: nat): Applied
  {
    var r := RealBufferedSource.Skip(s, n);
    var st := RealBufferedSource.Stream(s);
    if s.closed then Applied(FailureOf(r.result), [], r.next)
    else if r.result.Ok? then Applied(None, st[..n], r.next)
    else Applied(FailureOf(r.result), st, r.next)
  }

  function IndexOfCall(s: State, b: byte, from: nat, to: nat): Applied
  {
    var r := RealBufferedSource.IndexOfRange(s, b, from, to);
    Applied(FailureOf(r.result), [], r.next)
  }

  /** `readByte()` takes the byte it returned. */
  function ReadByteCall(s: State): Applied
  {
    var r := RealBufferedSource.ReadByte(s);
    if r.result.Ok? then Applied(None, [r.result.value], r.next)
    else Applied(FailureOf(r.result), [], r.next)
  }

  /** `readByteString(n)` takes the bytes it returned. */
  function ReadByteStringCall(s: State, n: nat): Applied
  {
    var r := RealBufferedSource.ReadByteString(s, n);
    if r.result.Ok? then Applied(None, r.result.value, r.next)
    else Applied(FailureOf(r.result), [], r.next)
  }

  /** `readAll(sink)` takes everything the sink was handed. */
  function ReadAllCall(s: State): Applied
  {
    var r := RealBufferedSource.ReadAll(s);
    if r.result.Ok? then Applied(None, Flatten(r.result.value.writes), r.next)
    else Applied(FailureOf(r.result), [], r.next)
  }

  /** `close()`, on the reader or its stream view, takes the buffered bytes it drops. */
  function CloseCall(s: State, op: Op): Applied
    requires Closes(op)
  {
    var next := if op.Close? then RealBufferedSource.Close(s) else InputStreamAdapter.Close(s);
    Applied(None, if s.closed then [] else s.buffer, next)
  }

  /** `read()` on the stream view takes the byte it returned, if any. */
  function StreamReadCall(s: State): Applied
  {
    var r := InputStreamAdapter.Read(s);
    if r.result.Ok? && 0 <= r.result.value < 256 then Applied(None, [r.result.value as byte], r.next)
    else Applied(FailureOf(r.result), [], r.next)
  }

  /** `read(data, offset, n)` takes the bytes it copied into the array. */
  function StreamReadIntoCall(s: State, data: seq<byte>, offset: nat, n: nat): Applied
  {
    var r := InputStreamAdapter.ReadInto(s, data, offset, n);
    if r.result.Ok? && r.result.value.count >= 0 then
      Applied(None, r.result.value.data[offset..offset + r.result.value.count], r.next)
    else Applied(FailureOf(r.result), [], r.next)
  }

  function StreamAvailableCall(s: State): Applied
  {
    var r := InputStreamAdapter.Available(s);
    Applied(FailureOf(r.result), [], r.next)
  }

  /** A call on an open reader that took the first `k` bytes, as `Advanced` describes, behaves. */
  lemma AdvancedBehaves(s: State, op: Op, need: nat, k: nat, a: Applied)
    requires !s.closed && !Closes(op)
    requires RealBufferedSource.Advanced(s, need, k, a.next)
    requires a.consumed == RealBufferedSource.Stream(s)[..k]
    ensures Behaves(s, op, a)
  {
    RealBufferedSource.AdvancedSplit(s, need, k, a.next);
  }

  /** `request(n)` and `require(n)` only buffer: they take nothing off the stream. */
  lemma RequestBehaves(s: State, n: nat)
    ensures Behaves(s, Request(n), RequestCall(s, n))
    ensures Behaves(s, Require(n), RequireCall(s, n))
  {
    if !s.closed {
      AdvancedBehaves(s, Request(n), n, 0, RequestCall(s, n));
      AdvancedBehaves(s, Require(n), n, 0, RequireCall(s, n));
    }
  }

  /** `skip(n)` takes exactly the bytes it skipped off the front of the stream. */
  lemma SkipBehaves(s: State, n: nat)
    ensures Behaves(s, Skip(n), SkipCall(s, n))
  {
    var r := RealBufferedSource.Skip(s, n);
    var st := RealBufferedSource.Stream(s);
    if !s.closed {
      if r.result.Ok? {
        AdvancedBehaves(s, Skip(n), n, n, SkipCall(s, n));
      } else {
        assert st[..|st|] == st;
        AdvancedBehaves(s, Skip(n), n, |st|, SkipCall(s, n));
      }
    }
  }

  /** `indexOf` only buffers: it takes nothing off the stream. */
  lemma IndexOfBehaves(s: State, b: byte, from: nat, to: nat)
    ensures Behaves(s, IndexOf(b, from, to), IndexOfCall(s, b, from, to))
  {
    RealBufferedSource.IndexOfKeepsStream(s, b, from, to);
  }

  /** `readByte()` takes exactly the byte it returned off the front of the stream. */
  lemma ReadByteBehaves(s: State)
    ensures Behaves(s, ReadByte, ReadByteCall(s))
  {
    var r := RealBufferedSource.ReadByte(s);
    var st := RealBufferedSource.Stream(s);
    if !s.closed {
      if r.result.Ok? {
        FirstOf(st);
        AdvancedBehaves(s, ReadByte, 1, 1, ReadByteCall(s));
      } else {
        AdvancedBehaves(s, ReadByte, 1, 0, ReadByteCall(s));
      }
    }
  }

  /** `readByteString(n)` takes exactly the bytes it returned off the front of the stream. */
  lemma ReadByteStringBehaves(s: State, n: nat)
    ensures Behaves(s, ReadByteString(n), ReadByteStringCall(s, n))
  {
    var r := RealBufferedSource.ReadByteString(s, n);
    if !s.closed {
      if r.result.Ok? {
        AdvancedBehaves(s, ReadByteString(n), n, n, ReadByteStringCall(s, n));
      } else {
        AdvancedBehaves(s, ReadByteString(n), n, 0, ReadByteStringCall(s, n));
      }
    }
  }

  /** `readAll(sink)` takes the whole stream, and the sink receives it in order. */
  lemma ReadAllBehaves(s: State)
    ensures Behaves(s, ReadAll, ReadAllCall(s))
  {
    var r := RealBufferedSource.ReadAll(s);
    if !s.closed {
      assert RealBufferedSource.Stream(r.next) == [];
    }
  }

  /** A close takes the buffered bytes and leaves the source's bytes; it closes the source once. */
  lemma CloseBehaves(s: State, op: Op)
    requires Closes(op)
    ensures Behaves(s, op, CloseCall(s, op))
  {
    var a := CloseCall(s, op);
    if !s.closed {
      assert RealBufferedSource.Stream(a.next) == s.source.data;
    }
  }

  /** `read()` on the stream view takes exactly the byte it returned, if any. */
  lemma StreamReadBehaves(s: State)
    ensures Behaves(s, StreamRead, StreamReadCall(s))
  {
    var r := InputStreamAdapter.Read(s);
    var st := RealBufferedSource.Stream(s);
    if !s.closed && r.result.value != -1 {
      var b := st[0];
      assert r.result == Ok(b as int);
      assert StreamReadCall(s) == Applied(None, [b], r.next);
      FirstOf(st);
      AdvancedBehaves(s, StreamRead, 1, 1, StreamReadCall(s));
    }
  }

  /** `read(data, offset, n)` takes exactly the bytes it copied, off the front of the stream. */
  lemma StreamReadIntoBehaves(s: State, data: seq<byte>, offset: nat, n: nat)
    ensures Behaves(s, StreamReadInto(data, offset, n), StreamReadIntoCall(s, data, offset, n))
  {
    var r := InputStreamAdapter.ReadInto(s, data, offset, n);
    if r.result.Ok? && r.result.value.count >= 0 {
      AdvancedBehaves(s, StreamReadInto(data, offset, n), 1, r.result.value.count,
                      StreamReadIntoCall(s, data, offset, n));
    }
  }

  /**
   * One call: it takes a prefix of the stream and leaves the rest, in order; only a close
   * closes the reader, and only the first one closes the source; on a closed reader it fails
   * (or, for a close, does nothing) and changes nothing.
   */
  function Apply(s: State, op: Op): (a: Applied)
    ensures Behaves(s, op, a)
  {
    match op
    case Request(n) => RequestBehaves(s, n); RequestCall(s, n)
    case Require(n) => RequestBehaves(s, n); RequireCall(s, n)
    case Skip(n) => SkipBehaves(s, n); SkipCall(s, n)
    case IndexOf(b, from, to) => IndexOfBehaves(s, b, from, to); IndexOfCall(s, b, from, to)
    case ReadByte => ReadByteBehaves(s); ReadByteCall(s)
    case ReadByteString(n) => ReadByteStringBehaves(s, n); ReadByteStringCall(s, n)
    case ReadAll => ReadAllBehaves(s); ReadAllCall(s)
    case Close => CloseBehaves(s, op); CloseCall(s, op)
    case StreamRead => StreamReadBehaves(s); StreamReadCall(s)
    case StreamReadInto(data, offset, n) =>
      StreamReadIntoBehaves(s, data, offset, n); StreamReadIntoCall(s, data, offset, n)
    case StreamAvailable => StreamAvailableCall(s)
    case StreamClose => CloseBehaves(s, op); CloseCall(s, op)
  }

  /** What a run of calls reports, call by call, and what it leaves. */
  datatype Session = Session(failures: seq<Option<Failure>>, consumed: seq<byte>, last: State)

  function Run(s: State, ops: seq<Op>): (r: Session)
    ensures |r.failures| == |ops|
    decreases |ops|
  {
    if |ops| == 0 then Session([], [], s)
    else
      var a := Apply(s, ops[0]);
      var rest := Run(a.next, ops[1..]);
      Session([a.failure] + rest.failures, a.consumed + rest.consumed, rest.last)
  }

  /** The bytes a run consumes, followed by what it leaves, are exactly the stream it started on. */
  lemma {:induction false} RunConsumesInOrder(s: State, ops: seq<Op>)
    ensures RealBufferedSource.Stream(s) ==
            Run(s, ops).consumed + RealBufferedSource.Stream(Run(s, ops).last)
    decreases |ops|
  {
    if |ops| > 0 {
      var a := Apply(s, ops[0]);
      var rest := Run(a.next, ops[1..]);
      RunConsumesInOrder(a.next, ops[1..]);
      assert Conserves(s, a);
      assert Run(s, ops).consumed == a.consumed + rest.consumed && Run(s, ops).last == rest.last;
      AppendAssociates(a.consumed, rest.consumed, RealBufferedSource.Stream(rest.last));
    }
  }

  /**
   * Once closed, every call other than `close()` fails with the closed error (never end of
   * stream), a repeated `close()` succeeds, and nothing changes.
   */
  lemma {:induction false} ClosedIsTerminal(s: State, ops: seq<Op>)
    requires s.closed
    ensures Run(s, ops).last == s
    ensures Run(s, ops).consumed == []
    ensures forall i :: 0 <= i < |ops| ==> Run(s, ops).failures[i] == ClosedFailure(ops[i])
    decreases |ops|
  {
    if |ops| > 0 {
      ClosedIsTerminal(s, ops[1..]);
      var fs := Run(s, ops).failures;
      assert forall i :: 1 <= i < |ops| ==> fs[i] == Run(s, ops[1..]).failures[i - 1];
    }
  }

  /** A run ends closed exactly when the reader was closed already or one of its calls closed it. */
  lemma {:induction false} ClosedExactlyAfterClose(s: State, ops: seq<Op>)
    ensures Run(s, ops).last.closed <==> s.closed || exists i :: 0 <= i < |ops| && Closes(ops[i])
    decreases |ops|
  {
    if |ops| > 0 {
      var a := Apply(s, ops[0]);
      ClosedExactlyAfterClose(a.next, ops[1..]);
      SomeCloses(ops);
    }
  }

  /** A sequence of calls holds a close exactly when its first call or the rest does. */
  lemma SomeCloses(ops: seq<Op>)
    requires |ops| > 0
    ensures (exists i :: 0 <= i < |ops| && Closes(ops[i])) <==>
            Closes(ops[0]) || exists i :: 0 <= i < |ops[1..]| && Closes(ops[1..][i])
  {
    if exists i :: 1 <= i < |ops| && Closes(ops[i]) {
      var i :| 1 <= i < |ops| && Closes(ops[i]);
      assert Closes(ops[1..][i - 1]);
    }
    if exists i :: 0 <= i < |ops[1..]| && Closes(ops[1..][i]) {
      var i :| 0 <= i < |ops[1..]| && Closes(ops[1..][i]);
      assert Closes(ops[i + 1]);
    }
  }

  /** The underlying source has been closed once if the reader is closed, and never otherwise. */
  ghost predicate ClosedOnce(s: State)
  {
    s.source.closeCalls == if s.closed then 1 else 0
  }

  /** Closing any number of times, directly or through the stream view, closes the source once. */
  lemma {:induction false} SourceClosedOnce(s: State, ops: seq<Op>)
    requires ClosedOnce(s)
    ensures ClosedOnce(Run(s, ops).last)
    decreases |ops|
  {
    if |ops| > 0 {
      SourceClosedOnce(Apply(s, ops[0]).next, ops[1..]);
    }
  }
}

=== FILE: sources.dfy ===
/**
 * The underlying byte source a buffered reader wraps. In the tests this is an in-memory
 * `Buffer` used as a `Source`, optionally wrapped in a `ForwardingSource` that shrinks every
 * read request (the `Math.min(1, byteCount)` override).
 */
module Sources {
  import opened Bytes

  /** A segment size: at least 2, and a Java `int`. */
  type SegmentSize = n: nat | 2 <= n <= 0x7fff_ffff witness 2
  type Positive = n: nat | 1 <= n witness 1

  /** Bytes one pull asks for (`Segment.SIZE`). Left abstract: every fact holds for any size >= 2. */
  const SEGMENT_SIZE: SegmentSize

  /** A per-read throttle: `AtMost(k)` forwards at most `k` bytes of any read request. */
  datatype ReadCap = Unthrottled | AtMost(limit: Positive)

  /**
   * The bytes the source still holds, its throttle, and how many times `close()` has been
   * called on it.
   */
  datatype Source = Source(data: seq<byte>, cap: ReadCap, closeCalls: nat)

  /** The byte count a read request for `byteCount` bytes is forwarded with. */
  function Grant(cap: ReadCap, byteCount: nat): (g: nat)
    ensures g <= byteCount
    ensures cap.Unthrottled? ==> g == byteCount
    ensures cap.AtMost? ==> g <= cap.limit
  {
    match cap
    case Unthrottled => byteCount
    case AtMost(k) => Min(k, byteCount)
  }

  /** The most bytes one segment-sized pull can move out of a source with this throttle. */
  function Chunk(cap: ReadCap): (c: Positive)
    ensures c <= SEGMENT_SIZE
    ensures cap.Unthrottled? ==> c == SEGMENT_SIZE
  {
    Grant(cap, SEGMENT_SIZE)
  }

  /** What `Source.read(sink, byteCount)` reports and leaves behind: `count == -1` at end of stream. */
  datatype Transfer = Transfer(count: int, source: Source, sink: seq<byte>)

  /**
   * `source.read(sink, byteCount)`: appends up to `byteCount` (throttled) bytes to `sink`,
   * taking them from the front of the source; -1 when the source is already empty. A read comes
   * back short only when it empties the source.
   */
  function ReadTo(src: Source, sink: seq<byte>, byteCount: nat): (r: Transfer)
    ensures src.data == [] ==> r == Transfer(-1, src, sink)
    ensures src.data != [] ==> r.count >= 0
    ensures r.count >= 0 ==>
              && r.count <= Grant(src.cap, byteCount)
              && r.count <= |src.data|
              && r.sink == sink + src.data[..r.count]
              && r.source == src.(data := src.data[r.count..])
    ensures 0 <= r.count < Grant(src.cap, byteCount) ==> r.source.data == []
  {
    if |src.data| == 0 then Transfer(-1, src, sink)
    else
      var n := Min(Grant(src.cap, byteCount), |src.data|);
      Transfer(n, src.(data := src.data[n..]), sink + src.data[..n])
  }

  /** `source.close()`: the bytes stay where they are; the call is recorded. */
  function Close(src: Source): (r: Source)
    ensures r.data == src.data && r.cap == src.cap
    ensures r.closeCalls == src.closeCalls + 1
  {
    src.(closeCalls := src.closeCalls + 1)
  }

  /**
   * The least multiple of `c` that is at least `x`: the bytes whole pulls of `c` must bring
   * to cover a shortfall of `x`.
   */
  function RoundUp(x: nat, c: Positive): (r: nat)
    ensures x <= r < x + c
    ensures x == 0 <==> r == 0
    decreases x
  {
    if x == 0 then 0
    else if x <= c then c
    else c + RoundUp(x - c, c)
  }

  /** `r` bytes are a whole number of pulls of `c`. */
  ghost predicate WholePulls(r: nat, c: Positive)
    decreases r
  {
    r == 0 || (c <= r && WholePulls(r - c, c))
  }

  /**
   * `RoundUp(x, c)` is a whole number of pulls of `c`, and it is the only such count in
   * `[x, x + c)`: the least multiple of `c` that covers `x`.
   */
  lemma {:induction false} RoundUpIsWholePulls(x: nat, c: Positive, r: nat)
    ensures WholePulls(RoundUp(x, c), c)
    ensures x <= r < x + c && WholePulls(r, c) ==> r == RoundUp(x, c)
    decreases x
  {
    if x == 0 {
    } else if x <= c {
      assert WholePulls(c - c, c);
      if x <= r < x + c && WholePulls(r, c) {
        assert WholePulls(r - c, c);
        assert r - c != 0 ==> r - c >= c;
      }
    } else {
      RoundUpIsWholePulls(x - c, c, if r >= c then r - c else 0);
      assert RoundUp(x, c) - c == RoundUp(x - c, c);
    }
  }

  /**
   * `d` cut, in order, into runs of `c` bytes, the last run possibly shorter: the writes a
   * sink sees when a source is drained one pull at a time.
   */
  function Chunks(d: seq<byte>, c: Positive): (r: seq<seq<byte>>)
    ensures Flatten(r) == d
    ensures forall i :: 0 <= i < |r| ==> 0 < |r[i]| <= c
    ensures forall i :: 0 <= i < |r| - 1 ==> |r[i]| == c
    decreases |d|
  {
    if |d| == 0 then []
    else if |d| <= c then [d]
    else
      var rest := Chunks(d[c..], c);
      FlattenCons(d[..c], rest);
      SplitAt(d, c);
      [d[..c]] + rest
  }

  /** A first run of exactly `c` bytes is cut off whole, and the rest is cut as before. */
  lemma ChunksCons(w: seq<byte>, rest: seq<byte>, c: Positive)
    requires |w| == c && rest != []
    ensures Chunks(w + rest, c) == [w] + Chunks(rest, c)
  {
    assert (w + rest)[..c] == w && (w + rest)[c..] == rest;
  }
}
